=== FILE: README.md ===
# Bus booking records: a Dafny model

This project models the record layer of a bus-booking backend. The layer has two
Mongoose schemas, `Bus` and `Booking`. Each schema declares enumerations,
required fields, bounds and defaults, and each has one pre-save hook:

- the **seat-map initialiser** of a bus fills in `totalSeats` seats named
  `S1..Sn`, available, of type `standard` and priced at `basePrice`, when the bus
  has no seats;
- the **booking identifier generator** sets a missing `bookingId` to `BKG`
  followed by the clock reading in milliseconds and a random number below 1000.

Everything is immutable datatypes and pure functions:

- `results.dfy` (`Results`): `Option` and `Result`.
- `decimal.dfy` (`Decimal`): the decimal rendering that JavaScript template
  literals give a non-negative integer below 10^21, its inverse, and both
  round trips.
- `schema.dfy` (`Schema`): object ids, millisecond timestamps, document
  paths, and the `FieldError` a failing `required`, `enum`, `min` or `max`
  validator reports for a path.
- `bus.dfy` (`BusModel`): seat type, bus type and amenity enumerations; `Seat`
  and `Bus`; validation; construction with defaults; and the seat initialiser.
- `booking.dfy` (`BookingModel`): gender, booking status, payment status and
  payment method enumerations; `Passenger` and `Booking`; validation;
  construction with defaults; and the identifier generator.

Conventions:

- A missing string is the empty string. JavaScript truthiness and Mongoose's
  `required` check treat `undefined` and `""` alike.
- A missing `seats` array is the empty sequence, because the hook treats both
  alike (`Bus.js:117`).
- Each enumeration is a datatype. Its `...Name` function gives the strings the
  schema lists. Its `Parse...` function is the enum validator: it accepts
  exactly those strings.
- A `...Draft` datatype is a record as handed to the constructor. There, a path
  that has a default may be absent (`Option`). `NewSeat`, `NewBus` and
  `NewBooking` fill in the schema's defaults.
- Validation returns the set of errors Mongoose collects, one per failing
  path (`BusErrors`, `BookingErrors`). Each is proved equivalent to a
  declarative predicate (`ValidBus`, `ValidBooking`), and each required path
  is proved to carry an error exactly when its value is missing.
- A path is a `Path`: `Top(name)`, or `Element(list, index, field)` for a
  field of an array element. `PathName` renders it as the dotted name Mongoose
  uses (`seats.3.seatNumber`), and `PathNameInjective` shows that the rendering
  loses nothing for paths without dots in their names.
- Clock and randomness are parameters. `now` is the value of `Date.now()`.
  `random` is the value of `Math.random()`, a real in [0, 1).
- The seat hook returns a `Result`. `Array.from` on an array-like whose length
  is 2^32 or more raises a `RangeError`, which aborts the save. A negative
  `totalSeats` becomes length 0 (`ToLength`).

What the code does not do, and the model therefore does not promise:

- The code has no seat holds, commits, refunds or status state machines.
  `status` and `paymentStatus` are plain enumerations that any save may set to
  any member.
- The generated booking identifier is not unique. The code concatenates two
  decimals with no separator. `GeneratedIdsCanCollide` shows two different
  (clock, suffix) pairs that give the same identifier.
  `GeneratedIdInjectiveForEqualWidth` shows that clock readings with the same
  number of digits cannot collide that way. Two saves in the same millisecond
  that draw the same suffix still collide. Only the store's `unique` index
  rejects a duplicate.
- A seat has only a boolean `isAvailable`; there is no held or sold state.

## Model

| member | source | states |
|---|---|---|
| Decimal.FromNat | backend/src/models/Bus.js:119 | The rendering of a number is a non-empty digit string with no leading zero, and it starts with '0' only for zero |
| Decimal.ToNatFromNat | backend/src/models/Booking.js:90 | Reading back the decimal rendering of n gives n |
| Decimal.FromNatToNat | backend/src/models/Booking.js:90 | Every canonical digit string is the rendering of the number it denotes |
| Schema.PathNameInjective | backend/src/models/Bus.js:79 | Two paths whose names contain no dot have the same dotted name iff they are the same path, so the seats.i.seatNumber names of distinct seats differ |
| Decimal.FromNatInjective | backend/src/models/Bus.js:119 | Two numbers have the same rendering if and only if they are equal |
| BusModel.ParseSeatType | backend/src/models/Bus.js:16-20 | A seat type string is accepted iff it names a member (standard, sleeper, semi-sleeper), and then it names the member returned |
| BusModel.ParseBusType | backend/src/models/Bus.js:37-41 | A bus type string is accepted iff it is one of AC, Non-AC, Sleeper, Semi-Sleeper, Luxury, and then it names the member returned |
| BusModel.ParseAmenity | backend/src/models/Bus.js:80-83 | An amenity string is accepted iff it is one of the six listed names, and then it names the member returned |
| BusModel.EnumNamesRoundTrip | backend/src/models/Bus.js:16-83 | Parsing the name of a seat type, bus type or amenity gives that member back, so no two members share a name |
| BusModel.BusErrors | backend/src/models/Bus.js:7-93 | Validation reports no error iff the required strings and every seat number are present and 0 <= rating <= 5; each of the eight required String paths carries a required error iff its value is missing; seats.i.seatNumber carries one iff seat i has no number; a rating below 0 gives the min error and one above 5 the max error |
| BusModel.BusErrorsOnePerPath | backend/src/models/Bus.js:7-93 | Two errors on the same path are the same error |
| BusModel.NewSeat | backend/src/models/Bus.js:12-20 | A seat constructed without isAvailable or type is available and standard; given values are kept |
| BusModel.NewReview | backend/src/models/Bus.js:94-105 | A review constructed without a date is dated now; a given date and the other fields are kept |
| BusModel.NewReviewRoundTrip | backend/src/models/Bus.js:94-105 | Constructing a review from a stored review's own user, rating, comment and date gives that review back, whatever the clock reads |
| BusModel.NewReviewReadsClockOnlyWhenUndated | backend/src/models/Bus.js:101-104 | Constructing the same review draft at two clock readings gives the same review iff the draft gives a date or the readings are equal |
| BusModel.NewBus | backend/src/models/Bus.js:27-113 | A bus constructed without rating, isActive or createdAt gets rating 0, active, created now; given values of those are kept; its seats and reviews get their own defaults; every other field is copied from the draft |
| BusModel.NewBusValid | backend/src/models/Bus.js:88-93 | A bus built with the default rating is valid exactly when its required strings and seat numbers are present |
| BusModel.SeatNameInjective | backend/src/models/Bus.js:119 | Seat names S<j> and S<k> are equal iff j = k |
| BusModel.GenerateSeats | backend/src/models/Bus.js:118-123 | The generated map has exactly count seats, and seat i is named S(i+1), available, standard and priced at the given price |
| BusModel.InitSeats | backend/src/models/Bus.js:116-126 | A bus with seats is returned unchanged; a bus without seats fails iff its length exceeds 2^32-1, and otherwise gets max(totalSeats, 0) generated seats S1..Sn, available, standard, at basePrice; no other field changes |
| BusModel.GeneratedSeatNumbersDistinct | backend/src/models/Bus.js:118-119 | Two generated seats have the same seat number iff they are the same seat |
| BusModel.InitSeatsIdempotent | backend/src/models/Bus.js:116-126 | Running the seat hook on its own output gives the same record |
| BusModel.GeneratedSeatsAreDefaultSeats | backend/src/models/Bus.js:118-123 | Each generated seat equals the seat the schema defaults build from just its number and price |
| BusModel.InitSeatsKeepsErrors | backend/src/models/Bus.js:116-126 | The seat hook neither adds nor removes validation errors, so it preserves validity both ways |
| BusModel.FirstSaveOfNewBus | backend/src/models/Bus.js:84-126 | A bus constructed without seats, rating or isActive and with 0 <= totalSeats <= 2^32-1 has, after the seat hook runs, exactly totalSeats seats, rating 0, and is active |
| BookingModel.ParseGender | backend/src/models/Booking.js:28-32 | A gender string is accepted iff it is Male, Female or Other, and then it names the member returned |
| BookingModel.ParseBookingStatus | backend/src/models/Booking.js:58-62 | A status string is accepted iff it is pending, confirmed, cancelled or completed, and then it names the member returned |
| BookingModel.ParsePaymentStatus | backend/src/models/Booking.js:63-67 | A payment status string is accepted iff it is pending, paid, failed or refunded, and then it names the member returned |
| BookingModel.ParsePaymentMethod | backend/src/models/Booking.js:71-74 | A payment method string is accepted iff it is card, upi, netbanking or wallet, and then it names the member returned |
| BookingModel.CastPaymentMethod | backend/src/models/Booking.js:71-74 | An absent payment method passes; a present one passes iff it is listed, and fails with an enum error on paymentMethod otherwise |
| BookingModel.EnumNamesRoundTrip | backend/src/models/Booking.js:28-74 | Parsing the name of a gender, status, payment status or payment method gives that member back |
| BookingModel.BookingErrors | backend/src/models/Booking.js:14-49 | Validation reports no error iff bookingId, boarding and dropping points and every passenger's name and seat number are present; the bookingId required error appears iff bookingId is missing; every error is a required error |
| BookingModel.BookingErrorsAtPoints | backend/src/models/Booking.js:42-49 | boardingPoint and droppingPoint each carry a required error iff their value is missing |
| BookingModel.BookingErrorsAtPassengers | backend/src/models/Booking.js:19-37 | passengerDetails.i.name and passengerDetails.i.seatNumber each carry a required error iff passenger i lacks that value |
| BookingModel.BookingErrorsOnePerPath | backend/src/models/Booking.js:14-49 | Two errors on the same path are the same error |
| BookingModel.NewBooking | backend/src/models/Booking.js:1-86 | A booking constructed without status, paymentStatus, bookingDate or createdAt is pending, payment pending, booked and created now; given values of those are kept; every other field is copied from the draft |
| BookingModel.RandomSuffix | backend/src/models/Booking.js:90 | floor(random * 1000) for random in [0, 1) is a natural below 1000 |
| BookingModel.AssignBookingId | backend/src/models/Booking.js:88-93 | A booking with an identifier is returned unchanged; a missing one becomes BKG, the clock's digits, then the digits of some k < 1000; no other field changes; the result always has an identifier |
| BookingModel.AssignBookingIdIdempotent | backend/src/models/Booking.js:88-93 | Running the identifier hook again, with any clock and random readings, changes nothing |
| BookingModel.GeneratedIdShape | backend/src/models/Booking.js:90 | A generated identifier starts with BKG, continues with digits only, and is 1 to 3 characters longer than BKG plus the clock's digits |
| BookingModel.GeneratedIdDecodes | backend/src/models/Booking.js:90 | Knowing the clock's width, the identifier's digits read back as the clock reading and the random suffix |
| BookingModel.GeneratedIdInjectiveForEqualWidth | backend/src/models/Booking.js:90 | For clock readings of equal width, two identifiers are equal iff the readings and the suffixes are |
| BookingModel.GeneratedIdsCanCollide | backend/src/models/Booking.js:90 | Clock 1 with suffix 23 and clock 12 with suffix 3 both give BKG123 |
| BookingModel.AssignBookingIdErrors | backend/src/models/Booking.js:88-93 | The identifier hook removes exactly the bookingId required error and leaves every other validation error |
| BookingModel.NewBookingAfterIdHook | backend/src/models/Booking.js:58-93 | A booking constructed without status, payment status, booking date or identifier is, after the identifier hook runs with the same clock reading, pending, payment pending, booked at that reading, with an identifier starting BKG |

## Left out

- `backend/src/models/Route.js`: purely declarative (required strings, numbers and float coordinates), with no logic.
- Object references and `populate` (`user`, `bus`, `route`, review `user`): an `ObjectId` is an opaque natural and never resolved.
- The `unique` indexes on `busNumber` and `bookingId`: the store enforces them, not the code.
- The order in which Mongoose runs validation and pre-save hooks: each hook is a standalone function. `bookingId` is declared required, so whether the generator ever sees a missing id depends on Mongoose internals.
- The sources of time and randomness (`Date.now`, `Math.random`): their readings are parameters. The `Date.now` defaults of `createdAt`, `bookingDate` and review `date` use one `now` parameter of the constructor, so they share one reading; Mongoose reads the clock once per path, so in the code they may differ by a millisecond.
- BookingModel.AssignBookingId: the clock reading is a `Clock`, a timestamp from 1970 up to the largest Date value (8.64e15 ms); an earlier, negative reading (whose rendering would carry a minus sign) is not modelled.
- Decimal.FromNat: JavaScript's exponent form for numbers of 10^21 and above ("1e+21") is not modelled; every number the model renders stays below 10^21.
- BookingModel.RandomSuffix: `Math.random() * 1000` is real multiplication, not IEEE-754 double rounding.
- Floating point: `rating` and review ratings are reals; prices, amounts, ages and seat counts are integers. Fractional `totalSeats` (which `ToLength` would truncate) is not modelled.
- Casting of values of the wrong JavaScript type (`CastError`), and the `required` validators of non-string paths, since the datatypes make those values always present and well-typed.
- BusModel.BusErrors, BookingModel.BookingErrors: the String paths with an `enum` (`busType`, seat `type`, `amenities`, passenger `gender`, `status`, `paymentStatus`, `paymentMethod`) are datatypes in the records, so these error sets never contain their `required` or `enum` errors; a bus whose `busType` is "" or "Bus" fails validation in the code. The `Parse...` functions and `CastPaymentMethod` are those validators, stated separately.
- BusModel.InitSeats: memory exhaustion while building a very long seat array is not modelled; only the `RangeError` at 2^32 is.
- Concurrency: the code has none.
- Invariants the code never enforces: `availableSeats` matching `seats`, `totalSeats` matching the passenger count, `totalAmount` matching seat prices, and status transition rules.

=== FILE: booking.dfy ===
/** The booking record of backend/src/models/Booking.js: its passenger
    sub-documents, the enumerations its schema declares, the defaults a new
    booking receives, and the pre-save hook that generates a missing
    `bookingId`. */
module BookingModel {
  import opened Results
  import opened Decimal
  import opened Schema

  // ---------------------------------------------------------------------------
  // Enumerations. Each `...Name` function is the string the schema lists; the
  // matching `Parse...` function is the schema's enum validator.
  // ---------------------------------------------------------------------------

  /** A passenger's `gender`. */
  datatype Gender = Male | Female | Other

  function GenderName(g: Gender): string {
    match g
    case Male => "Male"
    case Female => "Female"
    case Other => "Other"
  }

  /** Accepts exactly the names the schema lists, and returns the member named. */
  function ParseGender(s: string): (r: Option<Gender>)
    ensures r.Some? <==> exists g :: GenderName(g) == s
    ensures r.Some? ==> GenderName(r.value) == s
  {
    if s == GenderName(Male) then Some(Male)
    else if s == GenderName(Female) then Some(Female)
    else if s == GenderName(Other) then Some(Other)
    else None
  }

  /** The booking's `status`. */
  datatype BookingStatus = Pending | Confirmed | Cancelled | Completed

  function BookingStatusName(s: BookingStatus): string {
    match s
    case Pending => "pending"
    case Confirmed => "confirmed"
    case Cancelled => "cancelled"
    case Completed => "completed"
  }

  /** Accepts exactly the names the schema lists, and returns the member named. */
  function ParseBookingStatus(s: string): (r: Option<BookingStatus>)
    ensures r.Some? <==> exists t :: BookingStatusName(t) == s
    ensures r.Some? ==> BookingStatusName(r.value) == s
  {
    if s == BookingStatusName(Pending) then Some(Pending)
    else if s == BookingStatusName(Confirmed) then Some(Confirmed)
    else if s == BookingStatusName(Cancelled) then Some(Cancelled)
    else if s == BookingStatusName(Completed) then Some(Completed)
    else None
  }

  /** The booking's `paymentStatus`. */
  datatype PaymentStatus = PaymentPending | Paid | PaymentFailed | Refunded

  function PaymentStatusName(s: PaymentStatus): string {
    match s
    case PaymentPending => "pending"
    case Paid => "paid"
    case PaymentFailed => "failed"
    case Refunded => "refunded"
  }

  /** Accepts exactly the names the schema lists, and returns the member named. */
  function ParsePaymentStatus(s: string): (r: Option<PaymentStatus>)
    ensures r.Some? <==> exists t :: PaymentStatusName(t) == s
    ensures r.Some? ==> PaymentStatusName(r.value) == s
  {
    if s == PaymentStatusName(PaymentPending) then Some(PaymentPending)
    else if s == PaymentStatusName(Paid) then Some(Paid)
    else if s == PaymentStatusName(PaymentFailed) then Some(PaymentFailed)
    else if s == PaymentStatusName(Refunded) then Some(Refunded)
    else None
  }

  /** The booking's `paymentMethod`. */
  datatype PaymentMethod = Card | Upi | NetBanking | Wallet

  function PaymentMethodName(m: PaymentMethod): string {
    match m
    case Card => "card"
    case Upi => "upi"
    case NetBanking => "netbanking"
    case Wallet => "wallet"
  }

  /** Accepts exactly the names the schema lists, and returns the member named. */
  function ParsePaymentMethod(s: string): (r: Option<PaymentMethod>)
    ensures r.Some? <==> exists m :: PaymentMethodName(m) == s
    ensures r.Some? ==> PaymentMethodName(r.value) == s
  {
    if s == PaymentMethodName(Card) then Some(Card)
    else if s == PaymentMethodName(Upi) then Some(Upi)
    else if s == PaymentMethodName(NetBanking) then Some(NetBanking)
    else if s == PaymentMethodName(Wallet) then Some(Wallet)
    else None
  }

  /** `paymentMethod` is optional: an absent value passes validation, a present
      one must be listed in the enum. */
  function CastPaymentMethod(given: Option<string>): (r: Result<Option<PaymentMethod>, FieldError>)
    ensures given.None? ==> r == Success(None)
    ensures r.Failure? <==> given.Some? && forall m :: PaymentMethodName(m) != given.value
    ensures r.Failure? ==> r.error == FieldError(Top("paymentMethod"), NotInEnum)
    ensures r.Success? && given.Some? ==> r.value.Some? && PaymentMethodName(r.value.value) == given.value
  {
    match given
    case None => Success(None)
    case Some(s) =>
      match ParsePaymentMethod(s)
      case Some(m) => Success(Some(m))
      case None => Failure(FieldError(Top("paymentMethod"), NotInEnum))
  }

  /** Naming an enumeration member and parsing the name gives the member back,
      so no two members share a name. */
  lemma EnumNamesRoundTrip(g: Gender, s: BookingStatus, p: PaymentStatus, m: PaymentMethod)
    ensures ParseGender(GenderName(g)) == Some(g)
    ensures ParseBookingStatus(BookingStatusName(s)) == Some(s)
    ensures ParsePaymentStatus(PaymentStatusName(p)) == Some(p)
    ensures ParsePaymentMethod(PaymentMethodName(m)) == Some(m)
  {
  }

  // ---------------------------------------------------------------------------
  // Records
  // ---------------------------------------------------------------------------

  /** An entry of `passengerDetails`. Missing strings are "". */
  datatype Passenger = Passenger(name: string, age: int, gender: Gender, seatNumber: string)

  /** A booking document. Missing strings are "" (a missing `bookingId`
      included); paths without a default are optional. */
  datatype Booking = Booking(
    user: ObjectId,
    bus: ObjectId,
    bookingId: string,
    passengerDetails: seq<Passenger>,
    journeyDate: Millis,
    boardingPoint: string,
    droppingPoint: string,
    totalSeats: int,
    totalAmount: int,
    status: BookingStatus,
    paymentStatus: PaymentStatus,
    paymentId: string,
    paymentMethod: Option<PaymentMethod>,
    cancellationReason: string,
    cancelledAt: Option<Millis>,
    refundAmount: Option<int>,
    bookingDate: Millis,
    createdAt: Millis)

  // ---------------------------------------------------------------------------
  // Validation
  // ---------------------------------------------------------------------------

  /** Declarative well-formedness: `bookingId`, the boarding and dropping points
      and every passenger's name and seat number are present. */
  predicate ValidBooking(b: Booking) {
    b.bookingId != "" && HasRequiredDetails(b)
  }

  /** Every required String path other than `bookingId` is present: the boarding
      and dropping points, and each passenger's name and seat number. */
  predicate HasRequiredDetails(b: Booking) {
    && b.boardingPoint != "" && b.droppingPoint != ""
    && forall i :: 0 <= i < |b.passengerDetails| ==>
         b.passengerDetails[i].name != "" && b.passengerDetails[i].seatNumber != ""
  }

  /** The path of `field` in passenger `i`: `passengerDetails.<i>.<field>`. */
  function PassengerPath(i: nat, field: string): Path {
    Element("passengerDetails", i, field)
  }

  /** The `required` errors of the passengers' names: one at the name path of
      each passenger without a name, and no other. */
  function NameErrors(ps: seq<Passenger>): (r: set<FieldError>)
    ensures r == {} <==> forall i :: 0 <= i < |ps| ==> ps[i].name != ""
    ensures forall i :: 0 <= i < |ps| ==>
              (FieldError(PassengerPath(i, "name"), Required) in r <==> ps[i].name == "")
    ensures forall e :: e in r ==> e.kind == Required && e.path.Element? && e.path.field == "name"
  {
    var r := set i | 0 <= i < |ps| && ps[i].name == "" :: FieldError(PassengerPath(i, "name"), Required);
    assert r == {} <==> forall i :: 0 <= i < |ps| ==> ps[i].name != "" by {
      if i :| 0 <= i < |ps| && ps[i].name == "" {
        assert FieldError(PassengerPath(i, "name"), Required) in r;
      }
    }
    r
  }

  /** The `required` errors of the passengers' seat numbers: one at the seat-number
      path of each passenger without one, and no other. */
  function SeatNumberErrors(ps: seq<Passenger>): (r: set<FieldError>)
    ensures r == {} <==> forall i :: 0 <= i < |ps| ==> ps[i].seatNumber != ""
    ensures forall i :: 0 <= i < |ps| ==>
              (FieldError(PassengerPath(i, "seatNumber"), Required) in r <==> ps[i].seatNumber == "")
    ensures forall e :: e in r ==> e.kind == Required && e.path.Element? && e.path.field == "seatNumber"
  {
    var r := set i | 0 <= i < |ps| && ps[i].seatNumber == "" :: FieldError(PassengerPath(i, "seatNumber"), Required);
    assert r == {} <==> forall i :: 0 <= i < |ps| ==> ps[i].seatNumber != "" by {
      if i :| 0 <= i < |ps| && ps[i].seatNumber == "" {
        assert FieldError(PassengerPath(i, "seatNumber"), Required) in r;
      }
    }
    r
  }

  /** The `required` errors of the passengers: one at each name or seat-number
      path whose value is missing, and no other. */
  function PassengerErrors(ps: seq<Passenger>): (r: set<FieldError>)
    ensures r == {} <==> forall i :: 0 <= i < |ps| ==> ps[i].name != "" && ps[i].seatNumber != ""
    ensures forall i :: 0 <= i < |ps| ==>
              (FieldError(PassengerPath(i, "name"), Required) in r <==> ps[i].name == "")
    ensures forall i :: 0 <= i < |ps| ==>
              (FieldError(PassengerPath(i, "seatNumber"), Required) in r <==> ps[i].seatNumber == "")
    ensures forall e :: e in r ==> e.kind == Required && e.path.Element?
  {
    NameErrors(ps) + SeatNumberErrors(ps)
  }

  /** The errors Mongoose's validation reports for a booking: all `required`
      errors, the one at `bookingId` present exactly when the id is missing. */
  function BookingErrors(b: Booking): (r: set<FieldError>)
    ensures r == {} <==> ValidBooking(b)
    ensures FieldError(Top("bookingId"), Required) in r <==> b.bookingId == ""
    ensures forall e :: e in r ==> e.kind == Required
  {
    RequiredString("bookingId", b.bookingId)
    + RequiredString("boardingPoint", b.boardingPoint)
    + RequiredString("droppingPoint", b.droppingPoint)
    + PassengerErrors(b.passengerDetails)
  }

  /** The boarding and dropping points each report a `required` error exactly
      when they are missing. */
  lemma BookingErrorsAtPoints(b: Booking)
    ensures FieldError(Top("boardingPoint"), Required) in BookingErrors(b) <==> b.boardingPoint == ""
    ensures FieldError(Top("droppingPoint"), Required) in BookingErrors(b) <==> b.droppingPoint == ""
  {
    var passengers := PassengerErrors(b.passengerDetails);
    assert FieldError(Top("boardingPoint"), Required) !in passengers;
    assert FieldError(Top("droppingPoint"), Required) !in passengers;
  }

  /** Each passenger's name and seat-number paths report a `required` error
      exactly when that value is missing. */
  lemma BookingErrorsAtPassengers(b: Booking)
    ensures forall i :: 0 <= i < |b.passengerDetails| ==>
              (FieldError(PassengerPath(i, "name"), Required) in BookingErrors(b) <==> b.passengerDetails[i].name == "")
    ensures forall i :: 0 <= i < |b.passengerDetails| ==>
              (FieldError(PassengerPath(i, "seatNumber"), Required) in BookingErrors(b) <==> b.passengerDetails[i].seatNumber == "")
  {
    var own := RequiredString("bookingId", b.bookingId)
      + RequiredString("boardingPoint", b.boardingPoint)
      + RequiredString("droppingPoint", b.droppingPoint);
    assert forall e :: e in own ==> e.path.Top?;
    assert BookingErrors(b) == own + PassengerErrors(b.passengerDetails);
  }

  /** Validation reports at most one error per path. */
  lemma BookingErrorsOnePerPath(b: Booking)
    ensures forall e, e' :: e in BookingErrors(b) && e' in BookingErrors(b) && e.path == e'.path ==> e == e'
  {
  }

  // ---------------------------------------------------------------------------
  // Construction with defaults
  // ---------------------------------------------------------------------------

  /** A booking as given to the constructor: paths with a default may be absent. */
  datatype BookingDraft = BookingDraft(
    user: ObjectId,
    bus: ObjectId,
    bookingId: string,
    passengerDetails: seq<Passenger>,
    journeyDate: Millis,
    boardingPoint: string,
    droppingPoint: string,
    totalSeats: int,
    totalAmount: int,
    status: Option<BookingStatus>,
    paymentStatus: Option<PaymentStatus>,
    paymentId: string,
    paymentMethod: Option<PaymentMethod>,
    cancellationReason: string,
    cancelledAt: Option<Millis>,
    refundAmount: Option<int>,
    bookingDate: Option<Millis>,
    createdAt: Option<Millis>)

  /** A booking with the schema's defaults: booking and payment both pending,
      booked and created `now`. */
  function NewBooking(d: BookingDraft, now: Clock): (b: Booking)
    ensures d.status.None? ==> b.status == Pending
    ensures d.status.Some? ==> b.status == d.status.value
    ensures d.paymentStatus.None? ==> b.paymentStatus == PaymentPending
    ensures d.paymentStatus.Some? ==> b.paymentStatus == d.paymentStatus.value
    ensures d.bookingDate.None? ==> b.bookingDate == now
    ensures d.bookingDate.Some? ==> b.bookingDate == d.bookingDate.value
    ensures d.createdAt.None? ==> b.createdAt == now
    ensures d.createdAt.Some? ==> b.createdAt == d.createdAt.value
    ensures b.user == d.user && b.bus == d.bus && b.bookingId == d.bookingId
    ensures b.passengerDetails == d.passengerDetails && b.journeyDate == d.journeyDate
    ensures b.boardingPoint == d.boardingPoint && b.droppingPoint == d.droppingPoint
    ensures b.totalSeats == d.totalSeats && b.totalAmount == d.totalAmount
    ensures b.paymentId == d.paymentId && b.paymentMethod == d.paymentMethod
    ensures b.cancellationReason == d.cancellationReason && b.cancelledAt == d.cancelledAt
    ensures b.refundAmount == d.refundAmount
  {
    Booking(d.user, d.bus, d.bookingId, d.passengerDetails, d.journeyDate,
            d.boardingPoint, d.droppingPoint, d.totalSeats, d.totalAmount,
            OrDefault(d.status, Pending), OrDefault(d.paymentStatus, PaymentPending),
            d.paymentId, d.paymentMethod, d.cancellationReason, d.cancelledAt,
            d.refundAmount, OrDefault(d.bookingDate, now), OrDefault(d.createdAt, now))
  }

  // ---------------------------------------------------------------------------
  // The pre-save booking identifier generator
  // ---------------------------------------------------------------------------

  const IdPrefix := "BKG"

  /** `Math.floor(Math.random() * 1000)` for a draw `random` in [0, 1). */
  function RandomSuffix(random: real): (k: nat)
    requires 0.0 <= random < 1.0
    ensures k < 1000
    ensures k as real <= random * 1000.0 < k as real + 1.0
  {
    (random * 1000.0).Floor
  }

  /** The identifier the hook builds from the clock reading `now` and the
      random suffix `k`: the prefix, then both numbers in decimal. */
  function GeneratedId(now: Clock, k: nat): string {
    IdPrefix + FromNat(now) + FromNat(k)
  }

  /** The pre-save hook: a booking without an identifier (missing or "")
      receives a generated one; any other booking is saved unchanged.
      `now` is the reading of `Date.now()`, `random` that of `Math.random()`. */
  function AssignBookingId(b: Booking, now: Clock, random: real): (r: Booking)
    requires 0.0 <= random < 1.0
    ensures b.bookingId != "" ==> r == b
    ensures b.bookingId == "" ==>
              exists k :: 0 <= k < 1000 && r.bookingId == IdPrefix + FromNat(now) + FromNat(k)
    ensures r == b.(bookingId := r.bookingId)
    ensures r.bookingId != ""
  {
    if b.bookingId == "" then
      var k := RandomSuffix(random);
      b.(bookingId := GeneratedId(now, k))
    else
      b
  }

  /** Running the hook twice, with any second clock and random readings, gives
      the record of running it once. */
  lemma AssignBookingIdIdempotent(b: Booking, now: Clock, random: real, now': Clock, random': real)
    requires 0.0 <= random < 1.0 && 0.0 <= random' < 1.0
    ensures AssignBookingId(AssignBookingId(b, now, random), now', random') == AssignBookingId(b, now, random)
  {
  }

  /** A suffix below 1000 has one to three digits. */
  lemma {:induction false} SuffixWidth(k: nat)
    requires k < 1000
    ensures 1 <= |FromNat(k)| <= 3
  {
    if k >= 10 {
      assert |FromNat(k)| == |FromNat(k / 10)| + 1;
      if k >= 100 {
        assert |FromNat(k / 10)| == |FromNat(k / 100)| + 1;
      }
    }
  }

  /** A generated identifier is "BKG" followed only by digits: the clock's
      digits, then one to three digits of the random suffix. */
  lemma GeneratedIdShape(now: Clock, k: nat)
    requires k < 1000
    ensures GeneratedId(now, k)[..3] == "BKG"
    ensures AllDigits(GeneratedId(now, k)[3..])
    ensures |FromNat(now)| + 4 <= |GeneratedId(now, k)| <= |FromNat(now)| + 6
  {
    assert GeneratedId(now, k)[3..] == FromNat(now) + FromNat(k);
    SuffixWidth(k);
  }

  /** Given the width of the clock reading, a generated identifier determines
      both the clock reading and the random suffix. */
  lemma {:induction false} GeneratedIdDecodes(now: Clock, k: nat)
    ensures var id := GeneratedId(now, k);
            var w := |FromNat(now)|;
            && 3 + w <= |id|
            && AllDigits(id[3..3 + w]) && ToNat(id[3..3 + w]) == now
            && AllDigits(id[3 + w..]) && ToNat(id[3 + w..]) == k
  {
    var id := GeneratedId(now, k);
    var w := |FromNat(now)|;
    assert id[3..3 + w] == FromNat(now);
    assert id[3 + w..] == FromNat(k);
    ToNatFromNat(now);
    ToNatFromNat(k);
  }

  /** Two clock readings with the same number of digits never produce the same
      identifier unless the readings and the suffixes are equal. */
  lemma GeneratedIdInjectiveForEqualWidth(now1: Clock, k1: nat, now2: Clock, k2: nat)
    requires |FromNat(now1)| == |FromNat(now2)|
    ensures GeneratedId(now1, k1) == GeneratedId(now2, k2) <==> now1 == now2 && k1 == k2
  {
    if GeneratedId(now1, k1) == GeneratedId(now2, k2) {
      GeneratedIdDecodes(now1, k1);
      GeneratedIdDecodes(now2, k2);
    }
  }

  /** Across clock readings of different widths the concatenation is ambiguous:
      reading 1 with suffix 23 and reading 12 with suffix 3 give "BKG123". */
  lemma GeneratedIdsCanCollide()
    ensures GeneratedId(1, 23) == GeneratedId(12, 3) == "BKG123"
  {
  }

  /** The hook clears the `required` error of `bookingId` and leaves every other
      validation error as it was. */
  lemma AssignBookingIdErrors(b: Booking, now: Clock, random: real)
    requires 0.0 <= random < 1.0
    ensures BookingErrors(AssignBookingId(b, now, random)) == BookingErrors(b) - {FieldError(Top("bookingId"), Required)}
    ensures ValidBooking(AssignBookingId(b, now, random)) <==> HasRequiredDetails(b)
  {
  }

  /** A booking built without status, payment status or identifier, once the
      identifier hook has run with the same clock reading: it is pending on
      both counts, booked and created `now`, and has an identifier that starts
      with "BKG". */
  lemma NewBookingAfterIdHook(d: BookingDraft, now: Clock, random: real)
    requires 0.0 <= random < 1.0
    requires d.bookingId == "" && d.status.None? && d.paymentStatus.None? && d.bookingDate.None?
    ensures AssignBookingId(NewBooking(d, now), now, random).status == Pending
    ensures AssignBookingId(NewBooking(d, now), now, random).paymentStatus == PaymentPending
    ensures AssignBookingId(NewBooking(d, now), now, random).bookingDate == now
    ensures AssignBookingId(NewBooking(d, now), now, random).bookingId[..3] == "BKG"
  {
  }
}

=== FILE: bus.dfy ===
/** The bus record of backend/src/models/Bus.js: its seat sub-documents, the
    enumerations and bounds its schema declares, the defaults a new bus
    receives, and the pre-save hook that fills in an empty seat map. */
module BusModel {
  import opened Results
  import opened Decimal
  import opened Schema

  // ---------------------------------------------------------------------------
  // Enumerations. Each `...Name` function is the string the schema lists; the
  // matching `Parse...` function is the schema's enum validator.
  // ---------------------------------------------------------------------------

  /** A seat's `type`. */
  datatype SeatType = StandardSeat | SleeperSeat | SemiSleeperSeat

  function SeatTypeName(t: SeatType): string {
    match t
    case StandardSeat => "standard"
    case SleeperSeat => "sleeper"
    case SemiSleeperSeat => "semi-sleeper"
  }

  /** Accepts exactly the names the schema lists, and returns the member named. */
  function ParseSeatType(s: string): (r: Option<SeatType>)
    ensures r.Some? <==> exists t :: SeatTypeName(t) == s
    ensures r.Some? ==> SeatTypeName(r.value) == s
  {
    if s == SeatTypeName(StandardSeat) then Some(StandardSeat)
    else if s == SeatTypeName(SleeperSeat) then Some(SleeperSeat)
    else if s == SeatTypeName(SemiSleeperSeat) then Some(SemiSleeperSeat)
    else None
  }

  /** The bus's `busType`. */
  datatype BusType = AC | NonAC | Sleeper | SemiSleeper | Luxury

  function BusTypeName(t: BusType): string {
    match t
    case AC => "AC"
    case NonAC => "Non-AC"
    case Sleeper => "Sleeper"
    case SemiSleeper => "Semi-Sleeper"
    case Luxury => "Luxury"
  }

  /** Accepts exactly the names the schema lists, and returns the member named. */
  function ParseBusType(s: string): (r: Option<BusType>)
    ensures r.Some? <==> exists t :: BusTypeName(t) == s
    ensures r.Some? ==> BusTypeName(r.value) == s
  {
    if s == BusTypeName(AC) then Some(AC)
    else if s == BusTypeName(NonAC) then Some(NonAC)
    else if s == BusTypeName(Sleeper) then Some(Sleeper)
    else if s == BusTypeName(SemiSleeper) then Some(SemiSleeper)
    else if s == BusTypeName(Luxury) then Some(Luxury)
    else None
  }

  /** An entry of the bus's `amenities` array. */
  datatype Amenity = WiFi | ChargingPoint | WaterBottle | Blanket | TV | ReadingLight

  function AmenityName(a: Amenity): string {
    match a
    case WiFi => "WiFi"
    case ChargingPoint => "Charging Point"
    case WaterBottle => "Water Bottle"
    case Blanket => "Blanket"
    case TV => "TV"
    case ReadingLight => "Reading Light"
  }

  /** Accepts exactly the names the schema lists, and returns the member named. */
  function ParseAmenity(s: string): (r: Option<Amenity>)
    ensures r.Some? <==> exists a :: AmenityName(a) == s
    ensures r.Some? ==> AmenityName(r.value) == s
  {
    if s == AmenityName(WiFi) then Some(WiFi)
    else if s == AmenityName(ChargingPoint) then Some(ChargingPoint)
    else if s == AmenityName(WaterBottle) then Some(WaterBottle)
    else if s == AmenityName(Blanket) then Some(Blanket)
    else if s == AmenityName(TV) then Some(TV)
    else if s == AmenityName(ReadingLight) then Some(ReadingLight)
    else None
  }

  /** Naming an enumeration member and parsing the name gives the member back,
      so no two members share a name. */
  lemma EnumNamesRoundTrip(s: SeatType, b: BusType, a: Amenity)
    ensures ParseSeatType(SeatTypeName(s)) == Some(s)
    ensures ParseBusType(BusTypeName(b)) == Some(b)
    ensures ParseAmenity(AmenityName(a)) == Some(a)
  {
  }

  // ---------------------------------------------------------------------------
  // Records
  // ---------------------------------------------------------------------------

  /** A seat sub-document. A missing `seatNumber` is the empty string. */
  datatype Seat = Seat(seatNumber: string, isAvailable: bool, seatType: SeatType, price: int)

  /** An entry of `reviews`; none of its fields is required or bounded. */
  datatype Review = Review(user: Option<ObjectId>, rating: Option<real>, comment: string, date: Millis)

  /** A bus document. Missing strings are "", a missing `seats` array is []. */
  datatype Bus = Bus(
    busNumber: string,
    busName: string,
    busType: BusType,
    operator: string,
    route: ObjectId,
    from: string,
    to: string,
    departureTime: string,
    arrivalTime: string,
    duration: string,
    totalSeats: int,
    availableSeats: int,
    seats: seq<Seat>,
    amenities: seq<Amenity>,
    basePrice: int,
    rating: real,
    reviews: seq<Review>,
    isActive: bool,
    createdAt: Millis)

  // ---------------------------------------------------------------------------
  // Validation
  // ---------------------------------------------------------------------------

  /** Declarative well-formedness: the required strings are present, every seat
      has a seat number, and the rating lies in the closed range [0, 5]. */
  predicate ValidBus(b: Bus) {
    && HasRequiredStrings(b)
    && (forall i :: 0 <= i < |b.seats| ==> b.seats[i].seatNumber != "")
    && 0.0 <= b.rating <= 5.0
  }

  /** The eight String paths the schema marks `required`, each with its value. */
  function RequiredStrings(b: Bus): seq<(string, string)> {
    [ ("busNumber", b.busNumber), ("busName", b.busName), ("operator", b.operator),
      ("from", b.from), ("to", b.to),
      ("departureTime", b.departureTime), ("arrivalTime", b.arrivalTime),
      ("duration", b.duration) ]
  }

  /** Every required String path is present. */
  predicate HasRequiredStrings(b: Bus) {
    forall i :: 0 <= i < |RequiredStrings(b)| ==> RequiredStrings(b)[i].1 != ""
  }

  /** The path of the seat number of seat `i`: `seats.<i>.seatNumber`. */
  function SeatNumberPath(i: nat): Path {
    Element("seats", i, "seatNumber")
  }

  /** The `required` errors of the bus's own String paths: one at each path whose
      value is missing, and no other. */
  function StringErrors(b: Bus): (r: set<FieldError>)
    ensures r == {} <==> HasRequiredStrings(b)
    ensures forall k :: 0 <= k < |RequiredStrings(b)| ==>
              (FieldError(Top(RequiredStrings(b)[k].0), Required) in r <==> RequiredStrings(b)[k].1 == "")
    ensures forall e :: e in r ==>
              e.kind == Required && exists k :: 0 <= k < |RequiredStrings(b)| && e.path == Top(RequiredStrings(b)[k].0)
  {
    var fields := RequiredStrings(b);
    var r := set k | 0 <= k < |fields| && fields[k].1 == "" :: FieldError(Top(fields[k].0), Required);
    assert r == {} <==> HasRequiredStrings(b) by {
      if k :| 0 <= k < |fields| && fields[k].1 == "" {
        assert FieldError(Top(fields[k].0), Required) in r;
      }
    }
    r
  }

  /** The errors validation reports for the seats array: one at the seat-number
      path of each seat without a number, and no other. */
  function SeatErrors(seats: seq<Seat>): (r: set<FieldError>)
    ensures r == {} <==> forall i :: 0 <= i < |seats| ==> seats[i].seatNumber != ""
    ensures forall i :: 0 <= i < |seats| ==>
              (FieldError(SeatNumberPath(i), Required) in r <==> seats[i].seatNumber == "")
    ensures forall e :: e in r ==>
              e.kind == Required && exists i :: 0 <= i < |seats| && e.path == SeatNumberPath(i)
  {
    var r := set i | 0 <= i < |seats| && seats[i].seatNumber == "" :: FieldError(SeatNumberPath(i), Required);
    assert r == {} <==> forall i :: 0 <= i < |seats| ==> seats[i].seatNumber != "" by {
      if i :| 0 <= i < |seats| && seats[i].seatNumber == "" {
        assert FieldError(SeatNumberPath(i), Required) in r;
      }
    }
    r
  }

  /** The `min: 0` and `max: 5` validators of `rating`. */
  function RatingErrors(rating: real): (r: set<FieldError>)
    ensures FieldError(Top("rating"), BelowMin) in r <==> rating < 0.0
    ensures FieldError(Top("rating"), AboveMax) in r <==> rating > 5.0
    ensures forall e :: e in r ==> e.path == Top("rating") && e.kind != Required
    ensures forall e, e' :: e in r && e' in r ==> e == e'
  {
    if rating < 0.0 then {FieldError(Top("rating"), BelowMin)}
    else if rating > 5.0 then {FieldError(Top("rating"), AboveMax)}
    else {}
  }

  /** The errors Mongoose's validation reports for a bus: one at each required
      path whose value is missing, and one on `rating` when it is out of range. */
  function BusErrors(b: Bus): (r: set<FieldError>)
    ensures r == {} <==> ValidBus(b)
    ensures forall k :: 0 <= k < |RequiredStrings(b)| ==>
              (FieldError(Top(RequiredStrings(b)[k].0), Required) in r <==> RequiredStrings(b)[k].1 == "")
    ensures forall i :: 0 <= i < |b.seats| ==>
              (FieldError(SeatNumberPath(i), Required) in r <==> b.seats[i].seatNumber == "")
    ensures FieldError(Top("rating"), BelowMin) in r <==> b.rating < 0.0
    ensures FieldError(Top("rating"), AboveMax) in r <==> b.rating > 5.0
  {
    StringErrors(b) + SeatErrors(b.seats) + RatingErrors(b.rating)
  }

  /** Validation reports at most one error per path. */
  lemma BusErrorsOnePerPath(b: Bus)
    ensures forall e, e' :: e in BusErrors(b) && e' in BusErrors(b) && e.path == e'.path ==> e == e'
  {
    // Only `rating` carries errors of another kind, and it is not a required String path.
    assert forall k :: 0 <= k < |RequiredStrings(b)| ==> RequiredStrings(b)[k].0 != "rating";
  }

  // ---------------------------------------------------------------------------
  // Construction with defaults
  // ---------------------------------------------------------------------------

  /** A review as given to the constructor: its `date` defaults to the clock. */
  datatype ReviewDraft = ReviewDraft(user: Option<ObjectId>, rating: Option<real>, comment: string, date: Option<Millis>)

  /** A review with the schema's default: dated `now` unless a date is given. */
  function NewReview(d: ReviewDraft, now: Clock): (r: Review)
    ensures r.user == d.user && r.rating == d.rating && r.comment == d.comment
    ensures d.date.None? ==> r.date == now
    ensures d.date.Some? ==> r.date == d.date.value
  {
    Review(d.user, d.rating, d.comment, OrDefault(d.date, now))
  }

  /** The draft that gives every path of a stored review explicitly. */
  function DraftOfReview(r: Review): ReviewDraft {
    ReviewDraft(r.user, r.rating, r.comment, Some(r.date))
  }

  /** A review rebuilt from its own values is the same review, whatever the clock
      reads: the default never overrides a given date. */
  lemma NewReviewRoundTrip(r: Review, now: Clock)
    ensures NewReview(DraftOfReview(r), now) == r
  {
  }

  /** The clock reading matters exactly when the draft has no date. */
  lemma NewReviewReadsClockOnlyWhenUndated(d: ReviewDraft, now: Clock, now': Clock)
    ensures NewReview(d, now) == NewReview(d, now') <==> d.date.Some? || now == now'
  {
  }

  /** A seat as given to the constructor: paths with a default may be absent. */
  datatype SeatDraft = SeatDraft(seatNumber: string, isAvailable: Option<bool>, seatType: Option<SeatType>, price: int)

  /** A bus as given to the constructor: paths with a default may be absent
      (absent arrays are []). */
  datatype BusDraft = BusDraft(
    busNumber: string,
    busName: string,
    busType: BusType,
    operator: string,
    route: ObjectId,
    from: string,
    to: string,
    departureTime: string,
    arrivalTime: string,
    duration: string,
    totalSeats: int,
    availableSeats: int,
    seats: seq<SeatDraft>,
    amenities: seq<Amenity>,
    basePrice: int,
    rating: Option<real>,
    reviews: seq<ReviewDraft>,
    isActive: Option<bool>,
    createdAt: Option<Millis>)

  /** A seat with the schema's defaults: available, and of type standard. */
  function NewSeat(d: SeatDraft): (s: Seat)
    ensures s.seatNumber == d.seatNumber && s.price == d.price
    ensures d.isAvailable.None? ==> s.isAvailable
    ensures d.isAvailable.Some? ==> s.isAvailable == d.isAvailable.value
    ensures d.seatType.None? ==> s.seatType == StandardSeat
    ensures d.seatType.Some? ==> s.seatType == d.seatType.value
  {
    Seat(d.seatNumber, OrDefault(d.isAvailable, true), OrDefault(d.seatType, StandardSeat), d.price)
  }

  /** A bus with the schema's defaults: rating 0, active, created `now`, and
      its seats and reviews with their own defaults. */
  function NewBus(d: BusDraft, now: Clock): (b: Bus)
    ensures |b.seats| == |d.seats| && forall i :: 0 <= i < |d.seats| ==> b.seats[i] == NewSeat(d.seats[i])
    ensures d.rating.None? ==> b.rating == 0.0
    ensures d.rating.Some? ==> b.rating == d.rating.value
    ensures d.isActive.None? ==> b.isActive
    ensures d.isActive.Some? ==> b.isActive == d.isActive.value
    ensures d.createdAt.None? ==> b.createdAt == now
    ensures d.createdAt.Some? ==> b.createdAt == d.createdAt.value
    ensures |b.reviews| == |d.reviews| && forall i :: 0 <= i < |d.reviews| ==> b.reviews[i] == NewReview(d.reviews[i], now)
    ensures b.busNumber == d.busNumber && b.busName == d.busName && b.busType == d.busType
    ensures b.operator == d.operator && b.route == d.route && b.from == d.from && b.to == d.to
    ensures b.departureTime == d.departureTime && b.arrivalTime == d.arrivalTime && b.duration == d.duration
    ensures b.totalSeats == d.totalSeats && b.availableSeats == d.availableSeats
    ensures b.amenities == d.amenities && b.basePrice == d.basePrice
  {
    Bus(d.busNumber, d.busName, d.busType, d.operator, d.route, d.from, d.to,
        d.departureTime, d.arrivalTime, d.duration, d.totalSeats, d.availableSeats,
        seq(|d.seats|, i requires 0 <= i < |d.seats| => NewSeat(d.seats[i])),
        d.amenities, d.basePrice, OrDefault(d.rating, 0.0),
        seq(|d.reviews|, i requires 0 <= i < |d.reviews| => NewReview(d.reviews[i], now)),
        OrDefault(d.isActive, true), OrDefault(d.createdAt, now))
  }

  /** A bus built without a rating is valid exactly when its required strings
      (copied from the draft) and its seat numbers are present: the default
      rating 0 is in range. */
  lemma NewBusValid(d: BusDraft, now: Clock)
    requires d.rating.None?
    ensures ValidBus(NewBus(d, now)) <==>
              HasRequiredStrings(NewBus(d, now)) && forall i :: 0 <= i < |d.seats| ==> d.seats[i].seatNumber != ""
  {
  }

  // ---------------------------------------------------------------------------
  // The pre-save seat initialiser
  // ---------------------------------------------------------------------------

  /** The number `S1`, `S2`, ... the initialiser gives the k-th seat. */
  function SeatName(k: nat): string {
    "S" + FromNat(k)
  }

  /** Seat names are distinct for distinct positions. */
  lemma SeatNameInjective(j: nat, k: nat)
    ensures SeatName(j) == SeatName(k) <==> j == k
  {
    if SeatName(j) == SeatName(k) {
      assert FromNat(j) == SeatName(j)[1..];
      assert FromNat(k) == SeatName(k)[1..];
      FromNatInjective(j, k);
    }
  }

  /** The seat map of `count` seats that `Array.from` builds: seat i (from 0) is
      named S(i+1), available, standard, and priced at `price`. */
  function GenerateSeats(count: nat, price: int): (seats: seq<Seat>)
    ensures |seats| == count
    ensures forall i :: 0 <= i < count ==> seats[i] == Seat(SeatName(i + 1), true, StandardSeat, price)
  {
    if count == 0 then [] else GenerateSeats(count - 1, price) + [Seat(SeatName(count), true, StandardSeat, price)]
  }

  /** The largest length `new Array(len)` accepts (2^32 - 1); `Array.from`
      raises a RangeError for a longer array-like. */
  const MaxArrayLength: nat := 0xFFFF_FFFF

  /** Why the save is aborted. */
  datatype SaveError = InvalidArrayLength

  /** `ToLength` applied to an integral `totalSeats`: negative lengths become 0. */
  function ArrayLength(n: int): nat {
    if n < 0 then 0 else n
  }

  /** The pre-save hook: a bus without seats (missing or empty array) receives
      `totalSeats` generated seats; a bus with seats is saved unchanged. */
  function InitSeats(b: Bus): (r: Result<Bus, SaveError>)
    ensures |b.seats| > 0 ==> r == Success(b)
    ensures r.Failure? <==> |b.seats| == 0 && b.totalSeats > MaxArrayLength
    ensures r.Success? ==> r.value == b.(seats := r.value.seats)
    ensures r.Success? && |b.seats| == 0 ==>
              && |r.value.seats| == ArrayLength(b.totalSeats)
              && forall i :: 0 <= i < |r.value.seats| ==>
                   r.value.seats[i] == Seat(SeatName(i + 1), true, StandardSeat, b.basePrice)
  {
    if |b.seats| == 0 then
      var length := ArrayLength(b.totalSeats);
      if length > MaxArrayLength then Failure(InvalidArrayLength)
      else Success(b.(seats := GenerateSeats(length, b.basePrice)))
    else
      Success(b)
  }

  /** The seat numbers the hook generates are pairwise distinct. */
  lemma GeneratedSeatNumbersDistinct(b: Bus, i: nat, j: nat)
    requires |b.seats| == 0 && InitSeats(b).Success?
    requires i < |InitSeats(b).value.seats| && j < |InitSeats(b).value.seats|
    ensures InitSeats(b).value.seats[i].seatNumber == InitSeats(b).value.seats[j].seatNumber <==> i == j
  {
    SeatNameInjective(i + 1, j + 1);
  }

  /** Running the hook twice gives the record of running it once. */
  lemma InitSeatsIdempotent(b: Bus)
    requires InitSeats(b).Success?
    ensures InitSeats(InitSeats(b).value) == InitSeats(b)
  {
  }

  /** The generated seats are the seats the schema's defaults would build from
      just a seat number and a price. */
  lemma GeneratedSeatsAreDefaultSeats(b: Bus, i: nat)
    requires |b.seats| == 0 && InitSeats(b).Success? && i < |InitSeats(b).value.seats|
    ensures InitSeats(b).value.seats[i] == NewSeat(SeatDraft(SeatName(i + 1), None, None, b.basePrice))
  {
  }

  /** The hook neither adds nor removes validation errors: every generated seat
      has a (non-empty) seat number and no other path changes. */
  lemma InitSeatsKeepsErrors(b: Bus)
    requires InitSeats(b).Success?
    ensures BusErrors(InitSeats(b).value) == BusErrors(b)
    ensures ValidBus(InitSeats(b).value) <==> ValidBus(b)
  {
  }

  /** The first save of a bus built without seats: it gets exactly `totalSeats`
      seats, keeps the default rating 0 and stays active. */
  lemma FirstSaveOfNewBus(d: BusDraft, now: Clock)
    requires d.seats == [] && d.rating.None? && d.isActive.None?
    requires 0 <= d.totalSeats <= MaxArrayLength
    ensures InitSeats(NewBus(d, now)).Success?
    ensures |InitSeats(NewBus(d, now)).value.seats| == d.totalSeats
    ensures InitSeats(NewBus(d, now)).value.rating == 0.0
    ensures InitSeats(NewBus(d, now)).value.isActive
  {
  }
}

=== FILE: decimal.dfy ===
/** Decimal rendering of naturals, as JavaScript's template literals render a
    non-negative integral Number below 10^21 (`${n}`): shortest digit string,
    no sign, no leading zero. From 10^21 on JavaScript switches to exponent
    form ("1e+21"); the numbers the model renders (seat positions up to 2^32,
    clock readings up to 8.64e15, suffixes below 1000) all stay below that. */
module Decimal {

  predicate IsDigit(c: char) {
    '0' <= c <= '9'
  }

  predicate AllDigits(s: string) {
    forall i :: 0 <= i < |s| ==> IsDigit(s[i])
  }

  /** A string JavaScript could produce for a non-negative integer: at least one
      digit, and no leading zero unless the number is zero itself. */
  predicate Canonical(s: string) {
    |s| >= 1 && AllDigits(s) && (|s| > 1 ==> s[0] != '0')
  }

  function DigitChar(d: nat): (c: char)
    requires d < 10
    ensures IsDigit(c)
  {
    ('0' as int + d) as char
  }

  function DigitValue(c: char): (d: nat)
    requires IsDigit(c)
    ensures d < 10
    ensures DigitChar(d) == c
  {
    c as int - '0' as int
  }

  /** The decimal digits of `n`, most significant first. */
  function FromNat(n: nat): (s: string)
    ensures Canonical(s)
    ensures s[0] == '0' <==> n == 0
  {
    if n < 10 then [DigitChar(n)] else FromNat(n / 10) + [DigitChar(n % 10)]
  }

  /** The number a digit string denotes (the inverse of `FromNat`). */
  function ToNat(s: string): nat
    requires AllDigits(s)
  {
    if |s| == 0 then 0 else ToNat(s[..|s| - 1]) * 10 + DigitValue(s[|s| - 1])
  }

  /** Reading back the rendering of `n` gives `n`. */
  lemma {:induction false} ToNatFromNat(n: nat)
    ensures ToNat(FromNat(n)) == n
  {
    var s := FromNat(n);
    if n < 10 {
      assert s[..0] == [];
    } else {
      var p := FromNat(n / 10);
      assert s[..|s| - 1] == p;
      ToNatFromNat(n / 10);
    }
  }

  /** A number with a non-zero leading digit is positive. */
  lemma {:induction false} ToNatPositive(s: string)
    requires |s| >= 1 && AllDigits(s) && s[0] != '0'
    ensures ToNat(s) >= 1
  {
    if |s| > 1 {
      var p := s[..|s| - 1];
      assert p[0] == s[0];
      ToNatPositive(p);
    }
  }

  /** Rendering the value of a canonical digit string gives the string back. */
  lemma {:induction false} FromNatToNat(s: string)
    requires Canonical(s)
    ensures FromNat(ToNat(s)) == s
  {
    var p := s[..|s| - 1];
    var d := DigitValue(s[|s| - 1]);
    if |s| == 1 {
      assert p == [];
      assert FromNat(d) == [s[0]];
    } else {
      assert p[0] == s[0];
      assert Canonical(p);
      ToNatPositive(p);
      FromNatToNat(p);
      assert ToNat(s) == ToNat(p) * 10 + d;
      assert ToNat(s) / 10 == ToNat(p) && ToNat(s) % 10 == d;
      assert s == p + [s[|s| - 1]];
    }
  }

  /** Distinct numbers render to distinct strings. */
  lemma FromNatInjective(a: nat, b: nat)
    ensures FromNat(a) == FromNat(b) <==> a == b
  {
    if FromNat(a) == FromNat(b) {
      ToNatFromNat(a);
      ToNatFromNat(b);
    }
  }
}

=== FILE: results.dfy ===
/** The two wrappers the model shares: an optional value and a value-or-error
    result. */
module Results {

  /** A value that may be absent (an optional schema path with no default). */
  datatype Option<+T> = None | Some(value: T)

  /** The outcome of a hook: the saved record, or the error that aborts the save. */
  datatype Result<+R, +E> = Success(value: R) | Failure(error: E)
}

=== FILE: schema.dfy ===
/** Vocabulary shared by the two record schemas: identifiers, timestamps and the
    validation errors Mongoose reports, one per failing path. */
module Schema {
  import opened Results
  import opened Decimal

  /** A reference to another stored record; the store's key is opaque here. */
  type ObjectId = nat

  /** A point in time, in milliseconds since the Unix epoch. */
  type Millis = int

  /** The largest time value a JavaScript Date can hold: 8.64e15 ms, 100 000 000
      days after the epoch (section 21.4.1.1 of ECMA-262). */
  const MaxTimeValue: int := 8_640_000_000_000_000

  /** A reading of `Date.now()` at or after the epoch. Before 1970 the reading
      is negative and its decimal rendering would carry a minus sign, which the
      identifier generator does not model. The upper bound keeps every reading
      far below 10^21, from where JavaScript renders numbers in exponent form. */
  type Clock = t: Millis | 0 <= t <= MaxTimeValue

  /** The built-in validator that rejected a path. */
  datatype ErrorKind =
    | Required   // `required: true` on a missing value or, for a String path, on ""
    | NotInEnum  // `enum: [...]` on a string outside the list
    | BelowMin   // `min: m` on a number below m
    | AboveMax   // `max: m` on a number above m

  /** A document path: a top-level path, or `field` inside element `index` of
      the array at path `list`. */
  datatype Path = Top(name: string) | Element(list: string, index: nat, field: string)

  /** The dotted name Mongoose gives a path in its errors: `seats.3.seatNumber`. */
  function PathName(p: Path): string {
    match p
    case Top(name) => name
    case Element(list, i, field) => list + "." + FromNat(i) + "." + field
  }

  /** A path whose names contain no dot, as every path of the two schemas. */
  predicate WellFormedPath(p: Path) {
    match p
    case Top(name) => '.' !in name
    case Element(list, _, field) => '.' !in list && '.' !in field
  }

  /** A failed validation of the path `path`. */
  datatype FieldError = FieldError(path: Path, kind: ErrorKind)

  /** A string is split at the first occurrence of a separator in only one way. */
  lemma SplitAtSeparator(a: string, x: string, a': string, x': string, sep: char)
    requires sep !in a && sep !in a'
    ensures a + [sep] + x == a' + [sep] + x' <==> a == a' && x == x'
  {
    var s, s' := a + [sep] + x, a' + [sep] + x';
    if s == s' {
      var m := if |a| <= |a'| then |a| else |a'|;
      assert s[m] == s'[m];
      assert |a| == |a'|;
      assert a == s[..|a|] && a' == s'[..|a'|];
      assert x == s[|a| + 1..] && x' == s'[|a'| + 1..];
    }
  }

  /** The dotted name of an array element's path, split at its two dots; the
      digits of the index contain no dot. */
  lemma ElementNameParts(list: string, i: nat, field: string)
    ensures PathName(Element(list, i, field)) == list + ['.'] + (FromNat(i) + ['.'] + field)
    ensures '.' in PathName(Element(list, i, field))
    ensures '.' !in FromNat(i)
  {
    var digits := FromNat(i);
    assert AllDigits(digits);
    assert PathName(Element(list, i, field))[|list|] == '.';
  }

  /** Dotted names lose nothing: two well-formed paths have the same name
      exactly when they are the same path, so a set of errors keyed by `Path`
      is a set keyed by Mongoose's names. */
  lemma PathNameInjective(p: Path, q: Path)
    requires WellFormedPath(p) && WellFormedPath(q)
    ensures PathName(p) == PathName(q) <==> p == q
  {
    if p.Element? {
      ElementNameParts(p.list, p.index, p.field);
    }
    if q.Element? {
      ElementNameParts(q.list, q.index, q.field);
    }
    if p.Element? && q.Element? && PathName(p) == PathName(q) {
      var a, b := FromNat(p.index), FromNat(q.index);
      SplitAtSeparator(p.list, a + ['.'] + p.field, q.list, b + ['.'] + q.field, '.');
      SplitAtSeparator(a, p.field, b, q.field, '.');
      FromNatInjective(p.index, q.index);
    }
  }

  /** The error the `required` validator reports on a String path. */
  function RequiredString(name: string, value: string): (r: set<FieldError>)
    ensures r == {} <==> value != ""
    ensures value == "" ==> FieldError(Top(name), Required) in r
    ensures forall e :: e in r ==> e == FieldError(Top(name), Required)
  {
    if value == "" then {FieldError(Top(name), Required)} else {}
  }

  /** The default Mongoose stores when a document is constructed without a value. */
  function OrDefault<T>(given: Option<T>, default: T): T {
    match given
    case Some(v) => v
    case None => default
  }
}
